=== FILE: README.md ===
# ORemotePeer: the leader's handle on one cluster node

This project models `ORemotePeer` from OrientDB's early clustering layer. The
leader node keeps one such object for each remote node that asked to join. It
holds the node's identity (`address:port`), its status, the binary channel to
the node and the session id used on that channel. Its public operations are:

- `connect`: the handshake that either makes the node a peer of this leader or
  tells this leader to step down;
- `sendConfiguration` and `sendHeartBeat`: request/response exchanges over the
  channel;
- `checkConnection` and `disconnect`: probing and dropping the channel.

Each operation is a pure function from a `Peer` state to a `Step`. A `Step`
holds the new state, how the Java call completes (returns a value or raises),
the ordered trace of channel calls, and the ordered calls into the leader. The
channel is an oracle:

- the `failing` set names the positions in the operation's trace at which a
  channel call raises an `IOException`;
- a `Remote` value gives what the remote node's reads return.

Java's `try`/`finally` is modelled exactly, as are the unchecked dereference
in `beginResponse(int)` and the catch-all handlers of `sendConfiguration` and
`sendHeartBeat`.

Files:

- `base.dfy`: Java `int`/`byte` ranges and `Option`.
- `identity.dfy`: the identity string and its inverse.
- `channel.dfy`: the channel oracle, traces, request/response framing, and the
  shared request-then-empty-response exchange.
- `remote_peer.dfy`: the peer's state and operations.
- `lifecycle.dfy`: arbitrary sequences of operations.

The central property is framing. On every path of `connect`,
`sendConfiguration`, `sendHeartBeat`, `checkConnection` and `disconnect`,
including every path that raises, each request the operation begins is ended
and each response it begins is ended. The public response helpers
`beginResponse(int)`, `beginResponse()` and `endResponse()` open or close a
response on their own; they are framed only as their caller pairs them
(`RemotePeer.BeginEndResponseFramed`).

The status and the channel are not kept in step. `disconnect()`
(`ORemotePeer.java:227-233`) drops the channel and leaves the status alone, so
a CONNECTED peer may have no channel (`Lifecycle.ConnectedWithoutChannel`).
`sendHeartBeat` (`ORemotePeer.java:160-164`) tests the channel and the status
separately.

## Model

| member | source | states |
|---|---|---|
| Identity.NatToString | server/src/main/java/com/orientechnologies/orient/server/clustering/leader/ORemotePeer.java:61 | a port renders as a non-empty run of decimal digits with no leading zero; zero renders as the single digit "0" |
| Identity.IntToString | server/src/main/java/com/orientechnologies/orient/server/clustering/leader/ORemotePeer.java:61 | Java's `int` rendering in a concatenation: digits without a leading zero, zero as the single digit "0", with a leading minus sign exactly for negative values |
| Identity.NatRoundTrip | server/src/main/java/com/orientechnologies/orient/server/clustering/leader/ORemotePeer.java:61 | reading back the digits of a rendered natural number gives the number |
| Identity.IntRoundTrip | server/src/main/java/com/orientechnologies/orient/server/clustering/leader/ORemotePeer.java:61 | parsing the rendering of any integer gives the integer back |
| Identity.LastColon | server/src/main/java/com/orientechnologies/orient/server/clustering/leader/ORemotePeer.java:61 | finds the last ':' of an identity, or reports that there is none |
| Identity.PeerId | server/src/main/java/com/orientechnologies/orient/server/clustering/leader/ORemotePeer.java:61 | the id is the address, a colon and Java's rendering of the port; splitting it at its last colon gives back the address and the port |
| Identity.JoinSplits | server/src/main/java/com/orientechnologies/orient/server/clustering/leader/ORemotePeer.java:61 | splitting `address + ":" + port` at its last colon recovers the address and the port, even when the address contains colons |
| Identity.PeerIdInjective | server/src/main/java/com/orientechnologies/orient/server/clustering/leader/ORemotePeer.java:61 | two peers with the same id have the same address and port, so the id can key the leader's peer table |
| Identity.PeerIdExample | server/src/main/java/com/orientechnologies/orient/server/clustering/leader/ORemotePeer.java:61 | the node 10.0.0.2 on port 2434 has id "10.0.0.2:2434", and that id splits back |
| Identity.ColonAddressExample | server/src/main/java/com/orientechnologies/orient/server/clustering/leader/ORemotePeer.java:61 | the id "::1:2424" of an IPv6 loopback node splits into "::1" and 2424 |
| BinaryChannel.Issue | server/src/main/java/com/orientechnologies/orient/server/clustering/leader/ORemotePeer.java:88-97 | straight-line channel calls stop at the first one that raises: they return exactly when none of their positions fails; otherwise the last call made is the first failing one, and every earlier one returned |
| BinaryChannel.RequestBlock | server/src/main/java/com/orientechnologies/orient/server/clustering/leader/ORemotePeer.java:138-146 | `beginRequest; try body finally endRequest` ends every request it began, even when the body raises, and returns only when every call was made in order |
| BinaryChannel.RequestBlockReturns | server/src/main/java/com/orientechnologies/orient/server/clustering/leader/ORemotePeer.java:138-146 | a request block returns exactly when none of the positions of `beginRequest`, the body and `endRequest` fails |
| BinaryChannel.Exchange | server/src/main/java/com/orientechnologies/orient/server/clustering/leader/ORemotePeer.java:137-153 | the request-then-empty-response exchange returns exactly when none of its calls raised, and it always starts by attempting `beginRequest` |
| BinaryChannel.RequestThenResponseFramed | server/src/main/java/com/orientechnologies/orient/server/clustering/leader/ORemotePeer.java:148-152 | a closed request followed by `try beginResponse finally endResponse` closes both framings and every response attempt |
| BinaryChannel.ExchangeCompletes | server/src/main/java/com/orientechnologies/orient/server/clustering/leader/ORemotePeer.java:137-153 | an exchange returns if and only if its trace is the complete protocol sequence: begin, body, end of request, then begin and end of response |
| BinaryChannel.ExchangeFramed | server/src/main/java/com/orientechnologies/orient/server/clustering/leader/ORemotePeer.java:137-153 | whatever call raises, an exchange leaves no request or response open and ends every response it tried to begin |
| BinaryChannel.ExchangeReturns | server/src/main/java/com/orientechnologies/orient/server/clustering/leader/ORemotePeer.java:137-153 | an exchange returns exactly when no call before its final `endResponse` fails |
| BinaryChannel.ExchangeHealthy | server/src/main/java/com/orientechnologies/orient/server/clustering/leader/ORemotePeer.java:137-153 | on a channel where nothing raises, an exchange succeeds |
| RemotePeer.NewPeer | server/src/main/java/com/orientechnologies/orient/server/clustering/leader/ORemotePeer.java:55-63 | a new peer is CONNECTING, has no channel, and has an id that splits back into its address and port |
| RemotePeer.ToString | server/src/main/java/com/orientechnologies/orient/server/clustering/leader/ORemotePeer.java:236-238 | the printed form is the peer's id, which for a valid peer is `address:port` and splits back into its address and port |
| RemotePeer.GetId | server/src/main/java/com/orientechnologies/orient/server/clustering/leader/ORemotePeer.java:244-246 | `getId` returns the peer's id, the same string as the printed form |
| RemotePeer.BeginResponseFor | server/src/main/java/com/orientechnologies/orient/server/clustering/leader/ORemotePeer.java:193-195 | without a channel the helper raises a null dereference and makes no call; with one it attempts `beginResponse` under the given session |
| RemotePeer.BeginResponse | server/src/main/java/com/orientechnologies/orient/server/clustering/leader/ORemotePeer.java:197-200 | without a channel this helper is a silent no-op; with one it behaves like the session-taking helper on the current session id |
| RemotePeer.BeginEndResponseFramed | server/src/main/java/com/orientechnologies/orient/server/clustering/leader/ORemotePeer.java:197-205 | `beginResponse()` followed by `endResponse()` leaves no response open, whether the begin returns or raises, and makes calls exactly when there is a channel |
| RemotePeer.EndResponse | server/src/main/java/com/orientechnologies/orient/server/clustering/leader/ORemotePeer.java:202-205 | ends the response exactly when there is a channel, and never raises |
| RemotePeer.SendHandshake | server/src/main/java/com/orientechnologies/orient/server/clustering/leader/ORemotePeer.java:76-97 | the timeout is set first; a failed open keeps the old channel and session id; otherwise the new channel and the allocated session id are installed; the handshake returns only when all its calls completed in order |
| RemotePeer.ReadReply | server/src/main/java/com/orientechnologies/orient/server/clustering/leader/ORemotePeer.java:103-120 | the session id read first replaces the local one as soon as that read returns, even when a later read raises; a zero acceptance byte demotes the leader and yields no configuration; otherwise the remote's configuration is read |
| RemotePeer.AwaitReply | server/src/main/java/com/orientechnologies/orient/server/clustering/leader/ORemotePeer.java:101-123 | the response is begun under the locally allocated session id and, once begun, ended last whatever the reads do; the outcome matches the acceptance byte |
| RemotePeer.AwaitReplyClosed | server/src/main/java/com/orientechnologies/orient/server/clustering/leader/ORemotePeer.java:101-123 | awaiting the reply leaves no response open |
| RemotePeer.AwaitReplyOpensNoRequest | server/src/main/java/com/orientechnologies/orient/server/clustering/leader/ORemotePeer.java:101-123 | awaiting the reply opens no request |
| RemotePeer.SendAnswer | server/src/main/java/com/orientechnologies/orient/server/clustering/leader/ORemotePeer.java:126-131 | the leader reconciles the peer's databases under the peer's id; the peer becomes CONNECTED only when the answer was written and flushed |
| RemotePeer.SendAnswerUnframed | server/src/main/java/com/orientechnologies/orient/server/clustering/leader/ORemotePeer.java:127-128 | the answer is written bare, opening neither a request nor a response |
| RemotePeer.Negotiate | server/src/main/java/com/orientechnologies/orient/server/clustering/leader/ORemotePeer.java:99-131 | after the handshake: raises exactly when a channel call raised; returns true exactly on a complete exchange with an accepting remote, and only then is the peer CONNECTED |
| RemotePeer.NegotiateClosed | server/src/main/java/com/orientechnologies/orient/server/clustering/leader/ORemotePeer.java:101-131 | every response begun after the handshake is ended, on every path |
| RemotePeer.NegotiateOpensNoRequest | server/src/main/java/com/orientechnologies/orient/server/clustering/leader/ORemotePeer.java:101-131 | nothing after the handshake opens a request |
| RemotePeer.NegotiateBegins | server/src/main/java/com/orientechnologies/orient/server/clustering/leader/ORemotePeer.java:101 | a normal return began its response under the session id held before the reply |
| RemotePeer.NegotiateRefused | server/src/main/java/com/orientechnologies/orient/server/clustering/leader/ORemotePeer.java:105-123 | the leader is demoted if and only if the call returns false; then demotion is its only leader call and the response end is its last channel call |
| RemotePeer.NegotiateReconciles | server/src/main/java/com/orientechnologies/orient/server/clustering/leader/ORemotePeer.java:120-126 | on acceptance, the only leader call reconciles the configuration the remote sent, under the peer's id |
| RemotePeer.NegotiateAnswers | server/src/main/java/com/orientechnologies/orient/server/clustering/leader/ORemotePeer.java:126-128 | on acceptance, the last two channel calls write the leader's answer and flush it |
| RemotePeer.NegotiateReturns | server/src/main/java/com/orientechnologies/orient/server/clustering/leader/ORemotePeer.java:101-131 | the rest of the handshake returns exactly when the `beginResponse` and the two reads that always happen do not fail, nor, on acceptance, the configuration read and the answer's write and flush |
| RemotePeer.NegotiateHealthy | server/src/main/java/com/orientechnologies/orient/server/clustering/leader/ORemotePeer.java:99-131 | on a channel where nothing raises, the rest of the handshake returns |
| RemotePeer.Connect | server/src/main/java/com/orientechnologies/orient/server/clustering/leader/ORemotePeer.java:75-132 | keeps the peer's identity and invariant and sets the timeout; raises exactly when a channel call raised; returns true or false by the acceptance byte; the status becomes CONNECTED exactly on true and is untouched otherwise |
| RemotePeer.ConnectHealthy | server/src/main/java/com/orientechnologies/orient/server/clustering/leader/ORemotePeer.java:71-75 | on a healthy channel `connect` returns true exactly when the remote accepts, and false when the remote is itself the leader |
| RemotePeer.ConnectReturns | server/src/main/java/com/orientechnologies/orient/server/clustering/leader/ORemotePeer.java:75-132 | `connect` returns exactly when none of its first eight positions fails and, on acceptance, neither do positions 8, 10 and 11; position 9, `endResponse`, never raises |
| RemotePeer.ConnectOpenFails | server/src/main/java/com/orientechnologies/orient/server/clustering/leader/ORemotePeer.java:76-78 | when the channel cannot be opened, only the timeout has changed, no other call is made, and the I/O error propagates |
| RemotePeer.ConnectKeepsChannel | server/src/main/java/com/orientechnologies/orient/server/clustering/leader/ORemotePeer.java:78-132 | once opened, the new channel stays installed whether the rest of `connect` returns or raises |
| RemotePeer.ConnectSession | server/src/main/java/com/orientechnologies/orient/server/clustering/leader/ORemotePeer.java:85-103 | the handshake carries the allocated session id, the response is awaited under it, and on return the remote's session id has replaced it |
| RemotePeer.ConnectRefused | server/src/main/java/com/orientechnologies/orient/server/clustering/leader/ORemotePeer.java:105-123 | a leader call to step down happens exactly on a false return; it is the only leader call, and nothing is sent after the response is ended |
| RemotePeer.ConnectAccepted | server/src/main/java/com/orientechnologies/orient/server/clustering/leader/ORemotePeer.java:117-131 | on a true return the leader reconciled the peer's configuration exactly once and the answer was the last thing written |
| RemotePeer.ConnectFramed | server/src/main/java/com/orientechnologies/orient/server/clustering/leader/ORemotePeer.java:75-132 | on the refused, accepted and raising paths alike, `connect` leaves no request or response open |
| RemotePeer.SendConfiguration | server/src/main/java/com/orientechnologies/orient/server/clustering/leader/ORemotePeer.java:134-157 | always returns normally and changes no state; without a channel it makes no call; otherwise it starts with a request |
| RemotePeer.SendConfigurationDelivers | server/src/main/java/com/orientechnologies/orient/server/clustering/leader/ORemotePeer.java:137-153 | the configuration exchange had no failing call exactly when it was made completely, in protocol order |
| RemotePeer.SendConfigurationReaches | server/src/main/java/com/orientechnologies/orient/server/clustering/leader/ORemotePeer.java:137-153 | with a channel, the configuration exchange has no failing call exactly when none of its first six positions fails |
| RemotePeer.SendConfigurationFramed | server/src/main/java/com/orientechnologies/orient/server/clustering/leader/ORemotePeer.java:137-156 | whatever raises, `sendConfiguration` leaves nothing open and ends every response it tried to begin |
| RemotePeer.SendHeartBeat | server/src/main/java/com/orientechnologies/orient/server/clustering/leader/ORemotePeer.java:159-191 | never raises; returns true exactly for a CONNECTED peer with a channel whose exchange had no failing call; a peer without a channel or not CONNECTED gets false, no call and no change |
| RemotePeer.SendHeartBeatAnswered | server/src/main/java/com/orientechnologies/orient/server/clustering/leader/ORemotePeer.java:159-191 | a heartbeat returns true exactly when the peer is CONNECTED with a channel and none of the exchange's first five positions fails |
| RemotePeer.SendHeartBeatExchange | server/src/main/java/com/orientechnologies/orient/server/clustering/leader/ORemotePeer.java:170-190 | a successful heartbeat made the complete exchange under the current session id |
| RemotePeer.SendHeartBeatFramed | server/src/main/java/com/orientechnologies/orient/server/clustering/leader/ORemotePeer.java:170-188 | whatever raises, a heartbeat leaves nothing open and ends every response it tried to begin |
| RemotePeer.CheckConnection | server/src/main/java/com/orientechnologies/orient/server/clustering/leader/ORemotePeer.java:212-225 | returns true exactly when there is a channel whose socket reports connected; otherwise the peer becomes DISCONNECTED; the probe is made once, exactly when there is a channel with a socket, and is recorded as raising exactly when it throws |
| RemotePeer.Disconnect | server/src/main/java/com/orientechnologies/orient/server/clustering/leader/ORemotePeer.java:227-233 | the channel is gone afterwards, closed first if there was one; the service thread is shut down exactly when one is attached; the status is untouched |
| RemotePeer.CheckConnectionDemotes | server/src/main/java/com/orientechnologies/orient/server/clustering/leader/ORemotePeer.java:212-225 | a connection check can only demote to DISCONNECTED, never touches the channel, and keeps the invariant |
| RemotePeer.DisconnectIdempotent | server/src/main/java/com/orientechnologies/orient/server/clustering/leader/ORemotePeer.java:227-233 | a second `disconnect` leaves the same state and makes no channel call |
| RemotePeer.CheckAfterDisconnect | server/src/main/java/com/orientechnologies/orient/server/clustering/leader/ORemotePeer.java:212-233 | after `disconnect`, a check reports not connected without probing and marks the peer DISCONNECTED |
| RemotePeer.HeartBeatAfterDisconnect | server/src/main/java/com/orientechnologies/orient/server/clustering/leader/ORemotePeer.java:159-161 | after `disconnect`, a heartbeat returns false without any call and without changing the peer |
| Lifecycle.Apply | server/src/main/java/com/orientechnologies/orient/server/clustering/leader/ORemotePeer.java:75-233 | each of the five public operations (`connect`, `sendConfiguration`, `sendHeartBeat`, `checkConnection`, `disconnect`) keeps the invariant and the identity; only `connect` sets CONNECTED and installs a channel; only `checkConnection` sets DISCONNECTED; each call's own trace leaves nothing open |
| Lifecycle.RunPreservesValid | server/src/main/java/com/orientechnologies/orient/server/clustering/leader/ORemotePeer.java:55-233 | no sequence of operations breaks the peer's invariant |
| Lifecycle.RunKeepsIdentity | server/src/main/java/com/orientechnologies/orient/server/clustering/leader/ORemotePeer.java:44-61 | the id, address and port set by the constructor are never changed by any sequence of operations |
| Lifecycle.RunFramed | server/src/main/java/com/orientechnologies/orient/server/clustering/leader/ORemotePeer.java:101-183 | across any sequence of operations, including ones that raise, every request and response begun is ended later in the combined trace |
| Lifecycle.ConnectedOnlyByConnect | server/src/main/java/com/orientechnologies/orient/server/clustering/leader/ORemotePeer.java:130 | a peer that was not CONNECTED becomes CONNECTED only if the sequence contains a `connect` |
| Lifecycle.ChannelOnlyByConnect | server/src/main/java/com/orientechnologies/orient/server/clustering/leader/ORemotePeer.java:78 | a peer without a channel gets one only if the sequence contains a `connect` |
| Lifecycle.ConnectedWithoutChannel | server/src/main/java/com/orientechnologies/orient/server/clustering/leader/ORemotePeer.java:227-233 | a peer that connected and then disconnected still reads CONNECTED but has no channel |
| Lifecycle.JoinThenHeartBeat | server/src/main/java/com/orientechnologies/orient/server/clustering/leader/ORemotePeer.java:55-191 | a new node that accepts on a healthy channel becomes CONNECTED under its own id and the session id it chose, and the next heartbeat on a healthy channel succeeds |

## Left out

- Logging (`OLogManager`) is left out. It has no effect on state.
- `joinedOn` is left out. It is written once from the clock and never read.
- The leader back-reference is left out. The calls into it (`becomePeer`, `updatePeerDatabases`) are recorded as notices instead.
- The reconciled answer is a parameter (`answer`). What `updatePeerDatabases` computes is not part of this model.
- Documents (`ODocument`) and their serialization are left out. The handshake document (cluster name, secret key, leader address, running-since) and the configurations are opaque byte sequences passed as parameters. The secret key is not modelled.
- Opcode values are left out. The protocol constants are not given in the source, so opcodes are an enumeration.
- The connection-id counter is left out. `OStorageRemoteThread.getNextConnectionId()` is global state elsewhere, so its value is the parameter `nextSession`.
- The configuration is left out except for the socket timeout. No other setting is read or written here.
- The channel's own behaviour is an oracle: which calls raise, and what the reads return. This covers the socket, `OChannelBinaryClient` and whatever it does internally.
- `endResponse` and `close` are modelled as never raising, since the callers declare no checked exception for them. `endRequest` can raise.
- Concurrency and the `volatile` status are left out. Every operation is one atomic transition.
- The service thread is never created in this class; the line that would create it is commented out. `Valid` therefore holds that no service thread is attached. `disconnect`'s shutdown branch is still modelled.
- `RemotePeer.GetStatus` is a plain accessor with no contract.
- Runtime exceptions other than the missing-channel dereference are left out.
- Lifecycle.RunFramed: states only that every frame begun in the combined trace of a sequence is ended somewhere later in it, which a later call could supply. That each call closes its own frames is stated per call by `Lifecycle.Apply`.
- The public helpers `beginResponse(int)`, `beginResponse()` and `endResponse()` (`ORemotePeer.java:193-205`) are not operations of `Lifecycle.Run`. Each opens or closes a response alone and is meant to be paired by its caller, so a lone `beginResponse()` leaves a response open. Their pairing is stated by `RemotePeer.BeginEndResponseFramed`.

=== FILE: base.dfy ===
/** Value types shared by the peer-connection model: Java's fixed-width
    integers and an optional value. */
module Base {

  /** A Java `int`. */
  type Int32 = x: int | -0x8000_0000 <= x < 0x8000_0000

  /** A Java `byte` (signed). */
  type Int8 = x: int | -0x80 <= x < 0x80

  /** A value that may be absent; stands for a Java reference that may be null. */
  datatype Option<+T> = None | Some(value: T)
}

=== FILE: channel.dfy ===
/** The binary channel as an oracle. Every call the peer makes on the channel
    is recorded as an event of the operation's trace, together with whether it
    returned or raised an I/O error. Which calls raise is fixed in advance by
    the set of trace positions at which the channel fails. */
module BinaryChannel {
  import opened Base

  /** A serialized document; the document model is not part of this model. */
  type Doc = seq<Int8>

  /** The request opcodes the peer sends. */
  datatype Opcode = LeaderConnect | DbConfig | Heartbeat

  datatype Call =
    | Open(address: string, port: Int32)
    | BeginRequest
    | EndRequest
    | BeginResponse(session: Int32)
    | EndResponse
    | WriteOpcode(opcode: Opcode)
    | WriteInt(value: Int32)
    | WriteBytes(payload: Doc)
    | Flush
    | ReadInt
    | ReadByte
    | ReadBytes
    | IsConnected
    | Close

  /** One channel call of an operation and whether it returned normally
      (`ok`) or raised an I/O error. */
  datatype Event = Io(call: Call, ok: bool)

  /** A call the peer makes into a collaborator other than the channel: the
      leader node's demotion and reconciliation hooks, and the shutdown
      signal to an attached service thread. */
  datatype Notice =
    | BecomePeer
    | UpdatePeerDatabases(peerId: string, config: Doc)
    | ServiceShutdown

  /** Why a call raised: an I/O error of the channel, or a dereference of an absent channel. */
  datatype Failure = IoError | NullChannel

  /** How a Java call completes: it returns a value or raises. */
  datatype Outcome<+T> = Returned(value: T) | Raised(failure: Failure)

  /** What the remote node answers during one operation: the trace positions
      whose channel call raises, and the values the reads return. */
  datatype Remote = Remote(failing: set<nat>, sessionReply: Int32, acceptance: Int8, peerConfig: Doc)

  /** What the transport reports about the channel's socket. */
  datatype Probe = NoSocket | Reports(connected: bool) | Throws

  /** The event of issuing `c` as the call at position `pos` of the
      operation's trace: it raises exactly when `pos` is a failing position. */
  function Attempt(pos: nat, c: Call, failing: set<nat>): Event {
    Io(c, pos !in failing)
  }

  /** No channel call in `t` raised. */
  predicate AllOk(t: seq<Event>) {
    forall e <- t :: e.ok
  }

  /** A trace returned throughout exactly when both of its parts did. */
  lemma AllOkAppend(a: seq<Event>, b: seq<Event>)
    ensures AllOk(a + b) <==> AllOk(a) && AllOk(b)
  {
    if AllOk(a) && AllOk(b) {
      forall e | e in a + b
        ensures e.ok
      {
        if e in a {
          assert e.ok;
        }
      }
    }
  }

  /** The events of `calls` all returning normally. */
  function Completed(calls: seq<Call>): (t: seq<Event>)
    ensures |t| == |calls|
    ensures forall i :: 0 <= i < |calls| ==> t[i] == Io(calls[i], true)
  {
    seq(|calls|, i requires 0 <= i < |calls| => Io(calls[i], true))
  }

  lemma CompletedAppend(a: seq<Call>, b: seq<Call>)
    ensures Completed(a + b) == Completed(a) + Completed(b)
  {
  }

  /** How many of `n` consecutive calls, the first at position `start`, return
      before one raises. */
  function FirstFailure(start: nat, n: nat, failing: set<nat>): (k: nat)
    ensures k <= n
    ensures forall i :: start <= i < start + k ==> i !in failing
    ensures k < n ==> start + k in failing
    decreases n
  {
    if n == 0 || start in failing then 0 else 1 + FirstFailure(start + 1, n - 1, failing)
  }

  /** Issues `calls` one after the other from position `start` on, as
      straight-line Java code does, stopping after the first call that raises.
      The flag is whether every call returned. */
  function Issue(start: nat, calls: seq<Call>, failing: set<nat>): (r: (seq<Event>, bool))
    ensures r.1 <==> AllOk(r.0)
    ensures r.1 ==> r.0 == Completed(calls)
    ensures !r.1 ==> 0 < |r.0| <= |calls| && start + |r.0| - 1 in failing
    ensures !r.1 ==> r.0 == Completed(calls[..|r.0| - 1]) + [Io(calls[|r.0| - 1], false)]
    ensures forall e <- r.0 :: e.call in calls
    ensures r.1 <==> forall i :: start <= i < start + |calls| ==> i !in failing
    ensures !r.1 ==> forall i :: start <= i < start + |r.0| - 1 ==> i !in failing
  {
    var k := FirstFailure(start, |calls|, failing);
    if k == |calls| then
      assert calls[..k] == calls;
      (Completed(calls), true)
    else
      var t := Completed(calls[..k]) + [Io(calls[k], false)];
      assert Io(calls[k], false) in t;
      assert forall c <- calls[..k] :: c in calls;
      (t, false)
  }

  /** The two framings of the channel protocol: a request, opened by
      `beginRequest` and closed by `endRequest`, and a response, opened by
      `beginResponse` and closed by `endResponse`. */
  datatype Frame = Request | Response

  /** `e` is an opening call of `f` that returned normally. */
  predicate Opens(e: Event, f: Frame) {
    e.ok && (if f == Request then e.call == BeginRequest else e.call.BeginResponse?)
  }

  /** `e` is the closing call of `f`. */
  predicate Closes(e: Event, f: Frame) {
    e.call == (if f == Request then EndRequest else EndResponse)
  }

  /** Some call after position `i` of `t` closes `f`. */
  predicate ClosedAfter(t: seq<Event>, i: nat, f: Frame) {
    exists j :: i < j < |t| && Closes(t[j], f)
  }

  /** Every frame of kind `f` opened in `t` is closed later in `t`. */
  predicate Closed(t: seq<Event>, f: Frame) {
    forall i :: 0 <= i < |t| && Opens(t[i], f) ==> ClosedAfter(t, i, f)
  }

  /** Every attempt to open a response in `t`, returned or raised, is closed later in `t`. */
  predicate AttemptsClosed(t: seq<Event>) {
    forall i :: 0 <= i < |t| && t[i].call.BeginResponse? ==> ClosedAfter(t, i, Response)
  }

  /** Requests and responses are both closed: the channel is left consistent. */
  predicate Framed(t: seq<Event>) {
    Closed(t, Request) && Closed(t, Response)
  }

  /** `t` opens no frame of kind `f`. */
  predicate OpensNone(t: seq<Event>, f: Frame) {
    forall e <- t :: !Opens(e, f)
  }

  /** A trace that opens no frame of kind `f` leaves none open. */
  lemma ClosedWithoutOpens(t: seq<Event>, f: Frame)
    requires OpensNone(t, f)
    ensures Closed(t, f)
  {
    forall i | 0 <= i < |t|
      ensures !Opens(t[i], f)
    {
      assert t[i] in t;
    }
  }

  /** `t` makes no attempt to begin a response. */
  predicate NoResponseCall(t: seq<Event>) {
    forall e <- t :: !e.call.BeginResponse?
  }

  /** A trace that never tries to begin a response leaves none open. */
  lemma WithoutResponse(t: seq<Event>)
    requires NoResponseCall(t)
    ensures Closed(t, Response) && AttemptsClosed(t)
  {
    forall i | 0 <= i < |t|
      ensures !t[i].call.BeginResponse?
    {
      assert t[i] in t;
    }
  }

  /** Two traces that each close what they open still do so one after the other. */
  lemma ClosedAppend(a: seq<Event>, b: seq<Event>, f: Frame)
    requires Closed(a, f) && Closed(b, f)
    ensures Closed(a + b, f)
  {
    var t := a + b;
    forall i | 0 <= i < |t| && Opens(t[i], f)
      ensures ClosedAfter(t, i, f)
    {
      if i < |a| {
        assert Opens(a[i], f);
        var j :| i < j < |a| && Closes(a[j], f);
        assert t[j] == a[j];
      } else {
        assert Opens(b[i - |a|], f);
        var j :| i - |a| < j < |b| && Closes(b[j], f);
        assert t[j + |a|] == b[j];
      }
    }
  }

  /** Two traces that open no frame of kind `f` open none one after the other. */
  lemma OpensNoneAppend(a: seq<Event>, b: seq<Event>, f: Frame)
    requires OpensNone(a, f) && OpensNone(b, f)
    ensures OpensNone(a + b, f)
  {
    forall e | e in a + b
      ensures !Opens(e, f)
    {
      assert e in a || e in b;
    }
  }

  /** A trace that closes what it opens, followed by one that opens nothing,
      still closes what it opens. */
  lemma ClosedThenUnopened(a: seq<Event>, b: seq<Event>, f: Frame)
    requires Closed(a, f) && OpensNone(b, f)
    ensures Closed(a + b, f)
  {
    var t := a + b;
    forall i | |a| <= i < |t|
      ensures !Opens(t[i], f)
    {
      assert t[i] == b[i - |a|] && b[i - |a|] in b;
    }
    forall i | 0 <= i < |a| && Opens(t[i], f)
      ensures ClosedAfter(t, i, f)
    {
      assert Opens(a[i], f);
      var j :| i < j < |a| && Closes(a[j], f);
      assert t[j] == a[j];
    }
  }

  lemma FramedAppend(a: seq<Event>, b: seq<Event>)
    requires Framed(a) && Framed(b)
    ensures Framed(a + b)
  {
    ClosedAppend(a, b, Request);
    ClosedAppend(a, b, Response);
  }

  /** A trace whose last call closes `f` closes every `f` it opened. */
  lemma ClosedByLast(t: seq<Event>, f: Frame)
    requires |t| > 0 && Closes(t[|t| - 1], f)
    ensures Closed(t, f)
  {
    forall i | 0 <= i < |t| && Opens(t[i], f)
      ensures ClosedAfter(t, i, f)
    {
      assert i != |t| - 1;
    }
  }

  /** A trace whose last call is `endResponse` closes every response it
      attempted to begin, whether or not the attempt raised. */
  lemma AttemptsClosedByLast(t: seq<Event>)
    requires |t| > 0 && t[|t| - 1].call == EndResponse
    ensures AttemptsClosed(t)
  {
    forall i | 0 <= i < |t| && t[i].call.BeginResponse?
      ensures ClosedAfter(t, i, Response)
    {
      assert i != |t| - 1;
    }
  }

  /** The block `beginRequest(); try { body } finally { endRequest(); }`
      issued from position `start` on. A request that was begun is always
      ended, even when the body raises; the flag is whether the whole block
      completed without raising. */
  function RequestBlock(start: nat, body: seq<Call>, failing: set<nat>): (r: (seq<Event>, bool))
    ensures r.1 <==> AllOk(r.0)
    ensures r.1 ==> r.0 == Completed([BeginRequest] + body + [EndRequest])
    ensures |r.0| > 0 && r.0[0] == Io(BeginRequest, start !in failing)
    ensures forall e <- r.0 :: e.call in [BeginRequest] + body + [EndRequest]
    ensures Closed(r.0, Request)
  {
    if start in failing then
      var t := [Io(BeginRequest, false)];
      assert t[0] in t;
      (t, false)
    else
      var (written, ok) := Issue(start + 1, body, failing);
      var end := Io(EndRequest, start + 1 + |written| !in failing);
      var t := [Io(BeginRequest, true)] + written + [end];
      ClosedByLast(t, Request);
      if ok && end.ok then
        CompletedAppend([BeginRequest] + body, [EndRequest]);
        CompletedAppend([BeginRequest], body);
        (t, true)
      else
        assert !AllOk(t) by {
          if !ok {
            assert written[|written| - 1] in t;
          } else {
            assert t[|t| - 1] in t;
          }
        }
        (t, false)
  }

  /** A request block returns exactly when none of its calls falls on a
      failing position: `beginRequest`, the body and `endRequest` occupy the
      positions from `start` on, one each. */
  lemma RequestBlockReturns(start: nat, body: seq<Call>, failing: set<nat>)
    ensures RequestBlock(start, body, failing).1 <==> forall i :: start <= i < start + |body| + 2 ==> i !in failing
  {
    if start !in failing {
      var (written, ok) := Issue(start + 1, body, failing);
      if !ok {
        assert start + 1 + |written| - 1 in failing;
      }
    }
  }

  /** A request block followed by `beginResponse` and `endResponse` leaves
      both framings closed, whether or not the `beginResponse` returned. */
  lemma RequestThenResponseFramed(request: seq<Event>, begin: Event)
    requires Closed(request, Request) && NoResponseCall(request)
    requires begin.call.BeginResponse?
    ensures var t := request + [begin, Io(EndResponse, true)];
      Framed(t) && AttemptsClosed(t)
  {
    var response := [begin, Io(EndResponse, true)];
    var t := request + response;
    assert OpensNone(response, Request);
    ClosedWithoutOpens(response, Request);
    ClosedAppend(request, response, Request);
    ClosedByLast(t, Response);
    AttemptsClosedByLast(t);
  }

  /** The calls of a request with `body` and its empty response, under
      `session`, in protocol order. */
  function ExchangeCalls(body: seq<Call>, session: Int32): seq<Call> {
    [BeginRequest] + body + [EndRequest, BeginResponse(session), EndResponse]
  }

  /** `beginRequest(); try { body } finally { endRequest(); }` followed by
      `try { beginResponse(session); } finally { endResponse(); }`, the
      exchange that sends a request and awaits an empty response. The
      response is only attempted once the request block returned; the flag
      is whether the whole exchange returned. */
  function Exchange(body: seq<Call>, session: Int32, failing: set<nat>): (r: (seq<Event>, bool))
    ensures r.1 <==> AllOk(r.0)
    ensures |r.0| > 0 && r.0[0] == Io(BeginRequest, 0 !in failing)
  {
    var (request, sent) := RequestBlock(0, body, failing);
    if !sent then (request, false)
    else
      var begin := Attempt(|request|, BeginResponse(session), failing);
      var t := request + [begin, Io(EndResponse, true)];
      assert AllOk(t) <==> begin.ok by {
        assert t[|request|] == begin;
        AllOkAppend(request, [begin, Io(EndResponse, true)]);
      }
      (t, begin.ok)
  }

  /** An exchange returns exactly when every one of its calls was made, in
      protocol order, and returned. */
  lemma ExchangeCompletes(body: seq<Call>, session: Int32, failing: set<nat>)
    ensures var r := Exchange(body, session, failing);
      r.1 <==> r.0 == Completed(ExchangeCalls(body, session))
  {
    var r := Exchange(body, session, failing);
    var (request, sent) := RequestBlock(0, body, failing);
    if sent && r.1 {
      var response := [BeginResponse(session), EndResponse];
      assert ExchangeCalls(body, session) == ([BeginRequest] + body + [EndRequest]) + response;
      CompletedAppend([BeginRequest] + body + [EndRequest], response);
    }
  }

  /** Whatever raises during an exchange whose body never begins a response,
      no request or response is left open, and every response it tried to
      begin is ended. */
  lemma ExchangeFramed(body: seq<Call>, session: Int32, failing: set<nat>)
    requires forall c <- body :: !c.BeginResponse?
    ensures var r := Exchange(body, session, failing);
      Framed(r.0) && AttemptsClosed(r.0)
  {
    var r := Exchange(body, session, failing);
    var (request, sent) := RequestBlock(0, body, failing);
    assert NoResponseCall(request);
    if sent {
      RequestThenResponseFramed(request, Attempt(|request|, BeginResponse(session), failing));
    } else {
      assert r.0 == request;
      WithoutResponse(request);
    }
  }

  /** An exchange returns exactly when no call before its final
      `endResponse` falls on a failing position. */
  lemma ExchangeReturns(body: seq<Call>, session: Int32, failing: set<nat>)
    ensures Exchange(body, session, failing).1 <==> forall i :: 0 <= i < |body| + 3 ==> i !in failing
  {
    var (request, sent) := RequestBlock(0, body, failing);
    RequestBlockReturns(0, body, failing);
    if sent {
      assert |request| == |body| + 2;
    }
  }

  /** On a channel where nothing raises, an exchange returns. */
  lemma ExchangeHealthy(body: seq<Call>, session: Int32)
    ensures Exchange(body, session, {}).1
  {
  }
}

=== FILE: identity.dfy ===
/** The textual identity of a remote peer, `<address>:<port>`, built the way
    Java's string concatenation renders an `int`, and the inverse that splits
    an identity back into its address and port. */
module Identity {
  import opened Base

  /** The character of the decimal digit `d`. */
  function DigitChar(d: nat): (c: char)
    requires d < 10
    ensures '0' <= c <= '9'
    ensures c as int - '0' as int == d
  {
    ('0' as int + d) as char
  }

  predicate IsDigit(c: char) {
    '0' <= c <= '9'
  }

  /** A non-empty run of decimal digits. */
  predicate IsDigits(s: string) {
    |s| > 0 && forall i :: 0 <= i < |s| ==> IsDigit(s[i])
  }

  /** Decimal rendering of a natural number, without leading zeros. */
  function NatToString(n: nat): (s: string)
    ensures IsDigits(s)
    ensures s[0] == '0' ==> n == 0
    ensures n == 0 ==> s == "0"
    decreases n
  {
    if n < 10 then [DigitChar(n)] else NatToString(n / 10) + [DigitChar(n % 10)]
  }

  /** Java's rendering of an `int` in a string concatenation: an optional minus sign, then the digits. */
  function IntToString(n: int): (s: string)
    ensures n >= 0 ==> IsDigits(s)
    ensures n < 0 ==> |s| > 1 && s[0] == '-' && IsDigits(s[1..])
    ensures n >= 0 ==> (s[0] == '0' ==> n == 0)
    ensures n < 0 ==> s[1] != '0'
    ensures n == 0 ==> s == "0"
  {
    if n < 0 then "-" + NatToString(-n) else NatToString(n)
  }

  /** The value of a run of decimal digits. */
  function DigitsValue(s: string): nat
    requires forall i :: 0 <= i < |s| ==> IsDigit(s[i])
    decreases |s|
  {
    if s == [] then 0
    else
      assert IsDigit(s[|s| - 1]);
      DigitsValue(s[..|s| - 1]) * 10 + (s[|s| - 1] as int - '0' as int)
  }

  /** Reads back an integer written by `IntToString`; `None` when `s` is not of that shape. */
  function ParseInt(s: string): Option<int> {
    if |s| > 0 && s[0] == '-' && IsDigits(s[1..]) then Some(0 - DigitsValue(s[1..]))
    else if IsDigits(s) then Some(DigitsValue(s))
    else None
  }

  lemma {:induction false} NatRoundTrip(n: nat)
    ensures DigitsValue(NatToString(n)) == n
    decreases n
  {
    if n >= 10 {
      NatRoundTrip(n / 10);
      var s := NatToString(n);
      assert s[..|s| - 1] == NatToString(n / 10);
    }
  }

  lemma IntRoundTrip(n: int)
    ensures ParseInt(IntToString(n)) == Some(n)
  {
    if n < 0 {
      NatRoundTrip(-n);
      assert IntToString(n)[1..] == NatToString(-n);
    } else {
      NatRoundTrip(n);
    }
  }

  /** The identity of the peer at `address`:`port`: Java's concatenation of
      the address, a colon and the port. Splitting it gives both back. */
  function PeerId(address: string, port: Int32): (id: string)
    ensures id == address + ":" + IntToString(port)
    ensures SplitPeerId(id) == Some((address, port))
  {
    JoinSplits(address, port);
    address + ":" + IntToString(port)
  }

  /** The position of the last ':' in `s`, if there is one. */
  function LastColon(s: string): (r: Option<nat>)
    ensures r.Some? ==> r.value < |s| && s[r.value] == ':'
    ensures r.Some? ==> forall i :: r.value < i < |s| ==> s[i] != ':'
    ensures r.None? ==> forall i :: 0 <= i < |s| ==> s[i] != ':'
    decreases |s|
  {
    if s == [] then None
    else if s[|s| - 1] == ':' then Some(|s| - 1)
    else LastColon(s[..|s| - 1])
  }

  /** Splits an identity at its last ':' into the address and the port; the
      address may itself contain ':' (an IPv6 literal), the port never does. */
  function SplitPeerId(id: string): Option<(string, int)> {
    match LastColon(id)
    case None => None
    case Some(k) =>
      match ParseInt(id[k + 1..])
      case None => None
      case Some(port) => Some((id[..k], port))
  }

  /** Splitting `address:port` at its last colon gives back the address and
      the port: the port's rendering holds no colon, whatever the address
      holds. */
  lemma JoinSplits(address: string, port: Int32)
    ensures SplitPeerId(address + ":" + IntToString(port)) == Some((address, port))
  {
    var id := address + ":" + IntToString(port);
    var digits := IntToString(port);
    assert id[|address|] == ':';
    assert forall i :: |address| < i < |id| ==> id[i] == digits[i - |address| - 1];
    assert forall i :: 0 <= i < |digits| ==> digits[i] != ':' by {
      forall i | 0 <= i < |digits|
        ensures digits[i] != ':'
      {
        if port < 0 && i > 0 {
          assert digits[i] == digits[1..][i - 1];
        }
      }
    }
    var k := LastColon(id);
    assert k == Some(|address|);
    assert id[|address| + 1..] == digits;
    assert id[..|address|] == address;
    IntRoundTrip(port);
  }

  /** Two peers with the same identity have the same address and port, so the
      identity can key a table of peers. */
  lemma PeerIdInjective(a1: string, p1: Int32, a2: string, p2: Int32)
    requires PeerId(a1, p1) == PeerId(a2, p2)
    ensures a1 == a2 && p1 == p2
  {
  }

  /** The identity of the node at 10.0.0.2 on port 2434, and its split. */
  lemma PeerIdExample()
    ensures PeerId("10.0.0.2", 2434) == "10.0.0.2:2434"
    ensures SplitPeerId("10.0.0.2:2434") == Some(("10.0.0.2", 2434))
  {
    assert IntToString(2434) == "2434" by {
      assert NatToString(2) == "2";
      assert NatToString(24) == NatToString(2) + "4";
      assert NatToString(243) == NatToString(24) + "3";
    }
    var id := PeerId("10.0.0.2", 2434);
    assert id == "10.0.0.2:2434";
  }

  /** An address that itself contains colons: the split at the last colon
      still recovers the address and the port. */
  lemma ColonAddressExample()
    ensures SplitPeerId("::1:2424") == Some(("::1", 2424))
  {
    assert NatToString(2424) == "2424" by {
      assert NatToString(2) == "2";
      assert NatToString(24) == NatToString(2) + "4";
      assert NatToString(242) == NatToString(24) + "2";
    }
    assert PeerId("::1", 2424) == "::1:2424";
  }
}

=== FILE: lifecycle.dfy ===
/** Sequences of the five public operations on one peer (`connect`,
    `sendConfiguration`, `sendHeartBeat`, `checkConnection`, `disconnect`),
    as the leader makes them over the peer's life, and what holds across any
    such sequence. The response helpers are not among them: their caller
    pairs them. */
module Lifecycle {
  import opened Base
  import opened BinaryChannel
  import opened RemotePeer
  import Identity

  /** One call of one of the five public operations on the peer, with what
      the environment does during it. */
  datatype Op =
    | ConnectOp(timeout: Int32, nextSession: Int32, handshake: Doc, remote: Remote, answer: Doc)
    | SendConfigurationOp(config: Doc, failing: set<nat>)
    | SendHeartBeatOp(networkTimeout: Int32, failing: set<nat>)
    | CheckConnectionOp(probe: Probe)
    | DisconnectOp

  /** The state after one call and the channel calls it made; what the call
      returns or raises goes back to the leader and does not matter here. */
  function Apply(p: Peer, op: Op): (r: (Peer, seq<Event>))
    ensures Valid(p) ==> Valid(r.0)
    ensures r.0.id == p.id && r.0.address == p.address && r.0.port == p.port
    ensures r.0.status != p.status ==>
              || (op.ConnectOp? && r.0.status == Connected)
              || (op.CheckConnectionOp? && r.0.status == Disconnected)
    ensures r.0.channel.Some? && r.0.channel != p.channel ==> op.ConnectOp?
    ensures Framed(r.1)
  {
    match op
    case ConnectOp(timeout, nextSession, handshake, remote, answer) =>
      var s := Connect(p, timeout, nextSession, handshake, remote, answer);
      ConnectSession(p, timeout, nextSession, handshake, remote, answer);
      ConnectFramed(p, timeout, nextSession, handshake, remote, answer);
      (s.peer, s.trace)
    case SendConfigurationOp(config, failing) =>
      SendConfigurationFramed(p, config, failing);
      (p, SendConfiguration(p, config, failing).trace)
    case SendHeartBeatOp(networkTimeout, failing) =>
      SendHeartBeatFramed(p, networkTimeout, failing);
      var s := SendHeartBeat(p, networkTimeout, failing);
      (s.peer, s.trace)
    case CheckConnectionOp(probe) =>
      var s := CheckConnection(p, probe);
      (s.peer, s.trace)
    case DisconnectOp =>
      var s := Disconnect(p);
      WithoutResponse(s.trace);
      ClosedWithoutOpens(s.trace, Request);
      (s.peer, s.trace)
  }

  /** The calls of `ops` made one after the other from `p`: the final state
      and every channel call in order. */
  function Run(p: Peer, ops: seq<Op>): (Peer, seq<Event>)
    decreases |ops|
  {
    if ops == [] then (p, [])
    else
      var first := Apply(p, ops[0]);
      var rest := Run(first.0, ops[1..]);
      (rest.0, first.1 + rest.1)
  }

  /** No sequence of calls breaks the peer's invariant. */
  lemma {:induction false} RunPreservesValid(p: Peer, ops: seq<Op>)
    requires Valid(p)
    ensures Valid(Run(p, ops).0)
    decreases |ops|
  {
    if ops != [] {
      RunPreservesValid(Apply(p, ops[0]).0, ops[1..]);
    }
  }

  /** The identity a peer is created with is the one it keeps. */
  lemma {:induction false} RunKeepsIdentity(p: Peer, ops: seq<Op>)
    ensures var q := Run(p, ops).0;
      q.id == p.id && q.address == p.address && q.port == p.port
    decreases |ops|
  {
    if ops != [] {
      RunKeepsIdentity(Apply(p, ops[0]).0, ops[1..]);
    }
  }

  /** Whatever sequence of the five operations the leader makes and whatever
      raises, every request and response begun in the combined trace is
      ended later in it. */
  lemma {:induction false} RunFramed(p: Peer, ops: seq<Op>)
    ensures Framed(Run(p, ops).1)
    decreases |ops|
  {
    if ops == [] {
      ClosedWithoutOpens([], Request);
      ClosedWithoutOpens([], Response);
    } else {
      var first := Apply(p, ops[0]);
      var rest := Run(first.0, ops[1..]);
      RunFramed(first.0, ops[1..]);
      FramedAppend(first.1, rest.1);
    }
  }

  /** A peer becomes CONNECTED only through a `connect` call. */
  lemma {:induction false} ConnectedOnlyByConnect(p: Peer, ops: seq<Op>)
    requires p.status != Connected
    requires Run(p, ops).0.status == Connected
    ensures exists i :: 0 <= i < |ops| && ops[i].ConnectOp?
    decreases |ops|
  {
    if ops == [] {
      assert false;
    } else {
      var first := Apply(p, ops[0]);
      if !ops[0].ConnectOp? {
        assert first.0.status != Connected;
        ConnectedOnlyByConnect(first.0, ops[1..]);
        var i :| 0 <= i < |ops[1..]| && ops[1..][i].ConnectOp?;
        assert ops[i + 1].ConnectOp?;
      } else {
        assert ops[0].ConnectOp?;
      }
    }
  }

  /** A peer that never had a channel only gets one through a `connect`
      call. */
  lemma {:induction false} ChannelOnlyByConnect(p: Peer, ops: seq<Op>)
    requires p.channel.None?
    requires Run(p, ops).0.channel.Some?
    ensures exists i :: 0 <= i < |ops| && ops[i].ConnectOp?
    decreases |ops|
  {
    if ops == [] {
      assert false;
    } else {
      var first := Apply(p, ops[0]);
      if !ops[0].ConnectOp? {
        assert first.0.channel.None?;
        ChannelOnlyByConnect(first.0, ops[1..]);
        var i :| 0 <= i < |ops[1..]| && ops[1..][i].ConnectOp?;
        assert ops[i + 1].ConnectOp?;
      } else {
        assert ops[0].ConnectOp?;
      }
    }
  }

  /** The status and the channel are not kept in step: after an accepted
      `connect` and a `disconnect` the peer still reads CONNECTED although
      it has no channel. */
  lemma ConnectedWithoutChannel(p: Peer, timeout: Int32, nextSession: Int32, handshake: Doc, remote: Remote,
                                answer: Doc)
    requires remote.failing == {} && remote.acceptance != 0
    ensures var q := Disconnect(Connect(p, timeout, nextSession, handshake, remote, answer).peer).peer;
      q.status == Connected && q.channel.None?
  {
    ConnectHealthy(p, timeout, nextSession, handshake, remote, answer);
  }

  /** A freshly registered node that accepts the leader on a healthy
      channel becomes CONNECTED under its own identity and the session id
      it chose, and the next heartbeat on a healthy channel succeeds. */
  lemma JoinThenHeartBeat(address: string, port: Int32, timeout: Int32, nextSession: Int32, handshake: Doc,
                          remote: Remote, answer: Doc, networkTimeout: Int32)
    requires remote.failing == {} && remote.acceptance != 0
    ensures var c := Connect(NewPeer(address, port), timeout, nextSession, handshake, remote, answer);
      && Identity.SplitPeerId(ToString(c.peer)) == Some((address, port))
      && c.out == Returned(true)
      && c.peer.status == Connected
      && c.peer.sessionId == remote.sessionReply
      && SendHeartBeat(c.peer, networkTimeout, {}).out == Returned(true)
  {
    var p := NewPeer(address, port);
    ConnectHealthy(p, timeout, nextSession, handshake, remote, answer);
    ConnectSession(p, timeout, nextSession, handshake, remote, answer);
    ConnectKeepsChannel(p, timeout, nextSession, handshake, remote, answer);
    var c := Connect(p, timeout, nextSession, handshake, remote, answer);
    ExchangeHealthy(HeartbeatBody(c.peer.sessionId), c.peer.sessionId);
  }
}

=== FILE: remote_peer.dfy ===
/** The leader-side handle of one remote cluster node (`ORemotePeer`): its
    state, and each public operation as a pure transition that takes the
    channel's behaviour as a parameter and returns the new state, how the
    Java call completes, and the trace of channel and leader calls it made. */
module RemotePeer {
  import opened Base
  import opened BinaryChannel
  import Identity

  datatype Status = Disconnected | Connecting | Connected | Unreachable | Synchronizing

  /** An open binary channel to a remote address. */
  datatype Channel = Channel(address: string, port: Int32)

  /** The fields of an `ORemotePeer` that steer its behaviour. `timeout` is the
      socket timeout of the peer's configuration, `None` until first set;
      `serviceThread` is whether a service thread is attached. */
  datatype Peer = Peer(
    id: string,
    address: string,
    port: Int32,
    status: Status,
    channel: Option<Channel>,
    sessionId: Int32,
    timeout: Option<Int32>,
    serviceThread: bool)

  /** The result of one operation: the new state, how the Java call
      completes, the channel calls it made in order, and its calls into
      collaborators in order. */
  datatype Step<+T> = Step(peer: Peer, out: Outcome<T>, trace: seq<Event>, notices: seq<Notice>)

  /** What holds of every peer the operations can produce: the identity is
      the one of its address and port, no service thread is attached, and the
      two reserved statuses are never entered. */
  predicate Valid(p: Peer) {
    && p.id == Identity.PeerId(p.address, p.port)
    && !p.serviceThread
    && p.status != Unreachable
    && p.status != Synchronizing
  }

  /** The state of a freshly constructed peer. */
  function NewPeer(address: string, port: Int32): (p: Peer)
    ensures Valid(p)
    ensures Identity.SplitPeerId(p.id) == Some((address, port))
    ensures p.address == address && p.port == port
    ensures p.status == Connecting
    ensures p.channel == None
  {
    Peer(Identity.PeerId(address, port), address, port, Connecting, None, 0, None, false)
  }

  /** `toString()`: the peer's identity. */
  function ToString(p: Peer): (s: string)
    ensures s == p.id
    ensures Valid(p) ==> s == Identity.PeerId(p.address, p.port)
    ensures Valid(p) ==> Identity.SplitPeerId(s) == Some((p.address, p.port))
  {
    p.id
  }

  /** `getId()`: the same identity as `toString()`. */
  function GetId(p: Peer): (s: string)
    ensures s == ToString(p) && s == p.id
  {
    p.id
  }

  function GetStatus(p: Peer): Status {
    p.status
  }

  /** The helper `beginResponse(int)`, issued at position `pos`: it
      dereferences the channel without a check. */
  function BeginResponseFor(p: Peer, session: Int32, pos: nat, failing: set<nat>): (r: (seq<Event>, Outcome<()>))
    ensures p.channel.None? ==> r == ([], Raised(NullChannel))
    ensures p.channel.Some? ==> r.0 == [Io(Call.BeginResponse(session), pos !in failing)]
    ensures r.1.Returned? <==> p.channel.Some? && pos !in failing
    ensures r.1.Raised? && p.channel.Some? ==> r.1.failure == IoError
  {
    if p.channel.None? then ([], Raised(NullChannel))
    else ([Attempt(pos, Call.BeginResponse(session), failing)], if pos in failing then Raised(IoError) else Returned(()))
  }

  /** The helper `beginResponse()`: a no-op without a channel, else it opens
      the response of the current session. */
  function BeginResponse(p: Peer, pos: nat, failing: set<nat>): (r: (seq<Event>, Outcome<()>))
    ensures p.channel.None? ==> r == ([], Returned(()))
    ensures p.channel.Some? ==> r == BeginResponseFor(p, p.sessionId, pos, failing)
  {
    if p.channel.None? then ([], Returned(())) else BeginResponseFor(p, p.sessionId, pos, failing)
  }

  /** `beginResponse()` followed by `endResponse()`, as a caller pairs them:
      whatever the begin does, the pair leaves no response open, and it
      makes calls exactly when there is a channel. */
  lemma BeginEndResponseFramed(p: Peer, pos: nat, failing: set<nat>)
    ensures var t := BeginResponse(p, pos, failing).0 + EndResponse(p);
      Closed(t, Response) && AttemptsClosed(t) && (t != [] <==> p.channel.Some?)
  {
    var t := BeginResponse(p, pos, failing).0 + EndResponse(p);
    if p.channel.Some? {
      ClosedByLast(t, Response);
      AttemptsClosedByLast(t);
    } else {
      WithoutResponse(t);
    }
  }

  /** The helper `endResponse()`: closes the response when there is a
      channel, and never raises. */
  function EndResponse(p: Peer): (t: seq<Event>)
    ensures p.channel.None? ==> t == []
    ensures p.channel.Some? ==> t == [Io(Call.EndResponse, true)]
  {
    if p.channel.None? then [] else [Io(Call.EndResponse, true)]
  }

  /** The calls of the handshake request, in order: the channel is opened,
      then the opcode, the locally allocated session id and the handshake
      document are written and flushed. No request framing surrounds them. */
  function HandshakeCalls(p: Peer, nextSession: Int32, handshake: Doc): seq<Call> {
    [Open(p.address, p.port), WriteOpcode(LeaderConnect), WriteInt(nextSession), WriteBytes(handshake), Flush]
  }

  /** The first part of `connect`: set the socket timeout, open a new channel,
      allocate the session id and send the handshake request. A failure to
      open leaves the previous channel and session id in place. */
  function SendHandshake(p: Peer, timeout: Int32, nextSession: Int32, handshake: Doc, failing: set<nat>): (r: Step<()>)
    ensures 0 in failing ==> r.peer == p.(timeout := Some(timeout)) && r.trace == [Io(Open(p.address, p.port), false)]
    ensures 0 !in failing ==>
              r.peer == p.(timeout := Some(timeout), channel := Some(Channel(p.address, p.port)), sessionId := nextSession)
    ensures r.out.Returned? <==> AllOk(r.trace)
    ensures r.out.Returned? <==> forall i :: 0 <= i < 5 ==> i !in failing
    ensures r.out.Returned? ==> r.trace == Completed(HandshakeCalls(p, nextSession, handshake))
    ensures r.out.Raised? ==> r.out.failure == IoError
    ensures forall e <- r.trace :: e.call in HandshakeCalls(p, nextSession, handshake)
    ensures r.notices == []
  {
    var (t, sent) := Issue(0, HandshakeCalls(p, nextSession, handshake), failing);
    var p1 := p.(timeout := Some(timeout));
    if 0 in failing then Step(p1, Raised(IoError), t, [])
    else
      var p2 := p1.(channel := Some(Channel(p.address, p.port)), sessionId := nextSession);
      Step(p2, if sent then Returned(()) else Raised(IoError), t, [])
  }

  /** The body of the `try` block of `connect`, from position `start` on:
      read the remote's session id, which replaces the local one, and the
      acceptance byte; on refusal demote the leader, on acceptance read the
      remote's database configuration. The result is `None` on refusal and
      the configuration on acceptance. */
  function ReadReply(p: Peer, start: nat, remote: Remote): (r: Step<Option<Doc>>)
    ensures |r.trace| > 0 && r.trace[0] == Io(ReadInt, start !in remote.failing)
    ensures start in remote.failing ==> r.peer == p
    ensures start !in remote.failing ==> r.peer == p.(sessionId := remote.sessionReply)
    ensures r.out.Returned? <==> AllOk(r.trace)
    ensures r.out.Raised? ==> r.out.failure == IoError
    ensures r.out == Returned(None) <==> AllOk(r.trace) && remote.acceptance == 0
    ensures r.out == Returned(Some(remote.peerConfig)) <==> AllOk(r.trace) && remote.acceptance != 0
    ensures r.notices == if r.out == Returned(None) then [BecomePeer] else []
  {
    var failing := remote.failing;
    var readInt := Attempt(start, ReadInt, failing);
    if !readInt.ok then Step(p, Raised(IoError), [readInt], [])
    else
      var p1 := p.(sessionId := remote.sessionReply);
      var readByte := Attempt(start + 1, ReadByte, failing);
      if !readByte.ok then Step(p1, Raised(IoError), [readInt, readByte], [])
      else if remote.acceptance == 0 then Step(p1, Returned(None), [readInt, readByte], [BecomePeer])
      else
        var readBytes := Attempt(start + 2, ReadBytes, failing);
        if !readBytes.ok then Step(p1, Raised(IoError), [readInt, readByte, readBytes], [])
        else Step(p1, Returned(Some(remote.peerConfig)), [readInt, readByte, readBytes], [])
  }

  /** `beginResponse(sessionId); try { ReadReply } finally { endResponse(); }`
      in `connect`, from position `start` on: once the response has begun it
      is ended on every path. */
  function AwaitReply(p: Peer, start: nat, remote: Remote): (r: Step<Option<Doc>>)
    ensures r.peer == p || r.peer == p.(sessionId := remote.sessionReply)
    ensures r.out.Returned? ==> r.peer == p.(sessionId := remote.sessionReply)
    ensures r.out.Returned? <==> p.channel.Some? && AllOk(r.trace)
    ensures r.out.Raised? && p.channel.Some? ==> r.out.failure == IoError
    ensures r.out == Returned(None) <==> p.channel.Some? && AllOk(r.trace) && remote.acceptance == 0
    ensures r.out == Returned(Some(remote.peerConfig)) <==> p.channel.Some? && AllOk(r.trace) && remote.acceptance != 0
    ensures r.notices == if r.out == Returned(None) then [BecomePeer] else []
    ensures p.channel.Some? ==> |r.trace| > 0 && r.trace[0] == Io(Call.BeginResponse(p.sessionId), start !in remote.failing)
    ensures p.channel.Some? && start !in remote.failing ==> r.trace[|r.trace| - 1] == Io(Call.EndResponse, true)
  {
    var (begin, begun) := BeginResponseFor(p, p.sessionId, start, remote.failing);
    if begun.Raised? then Step(p, Raised(begun.failure), begin, [])
    else
      var body := ReadReply(p, start + 1, remote);
      Step(body.peer, body.out, begin + body.trace + EndResponse(body.peer), body.notices)
  }

  /** Once `connect` has begun a response, it ends it on every path. */
  lemma AwaitReplyClosed(p: Peer, start: nat, remote: Remote)
    ensures Closed(AwaitReply(p, start, remote).trace, Response)
  {
    var r := AwaitReply(p, start, remote);
    if p.channel.Some? && start !in remote.failing {
      ClosedByLast(r.trace, Response);
    } else {
      ClosedWithoutOpens(r.trace, Response);
    }
  }

  /** Awaiting the reply opens no request. */
  lemma AwaitReplyOpensNoRequest(p: Peer, start: nat, remote: Remote)
    ensures OpensNone(AwaitReply(p, start, remote).trace, Request)
  {
    if p.channel.Some? && start !in remote.failing {
      var body := ReadReply(p, start + 1, remote);
      assert AwaitReply(p, start, remote).trace
          == [Io(Call.BeginResponse(p.sessionId), true)] + body.trace + [Io(Call.EndResponse, true)];
    }
  }

  /** The end of a successful handshake in `connect`, from position `start`
      on: the leader reconciles the peer's databases, the answer is written
      back without awaiting a response, and the peer becomes CONNECTED. */
  function SendAnswer(p: Peer, start: nat, config: Doc, answer: Doc, failing: set<nat>): (r: Step<bool>)
    ensures r.notices == [UpdatePeerDatabases(p.id, config)]
    ensures r.out.Returned? <==> AllOk(r.trace)
    ensures r.out.Returned? <==> start !in failing && start + 1 !in failing
    ensures r.out.Returned? ==> r.out.value && r.peer == p.(status := Connected)
    ensures r.out.Returned? ==> r.trace == [Io(WriteBytes(answer), true), Io(Flush, true)]
    ensures r.out.Raised? ==> r.out.failure == IoError && r.peer == p
  {
    var (t, sent) := Issue(start, [WriteBytes(answer), Flush], failing);
    if sent then Step(p.(status := Connected), Returned(true), t, [UpdatePeerDatabases(p.id, config)])
    else Step(p, Raised(IoError), t, [UpdatePeerDatabases(p.id, config)])
  }

  /** The answer is written bare: it opens neither a request nor a
      response. */
  lemma SendAnswerUnframed(p: Peer, start: nat, config: Doc, answer: Doc, failing: set<nat>)
    ensures var r := SendAnswer(p, start, config, answer, failing);
      OpensNone(r.trace, Response) && OpensNone(r.trace, Request)
  {
  }

  /** Everything `connect` does after the handshake is written, from
      position `start` on: await the reply, and on acceptance answer it. */
  function Negotiate(p: Peer, start: nat, remote: Remote, answer: Doc): (r: Step<bool>)
    requires p.channel.Some?
    ensures r.out.Returned? && r.out.value ==> r.peer == p.(sessionId := remote.sessionReply, status := Connected)
    ensures !(r.out.Returned? && r.out.value) ==> r.peer == p || r.peer == p.(sessionId := remote.sessionReply)
    ensures r.out.Returned? ==> r.peer.sessionId == remote.sessionReply
    ensures r.out.Raised? <==> !AllOk(r.trace)
    ensures r.out.Raised? ==> r.out.failure == IoError
    ensures r.out == Returned(true) <==> AllOk(r.trace) && remote.acceptance != 0
  {
    var reply := AwaitReply(p, start, remote);
    match reply.out
    case Raised(failure) => Step(reply.peer, Raised(failure), reply.trace, reply.notices)
    case Returned(None) => Step(reply.peer, Returned(false), reply.trace, reply.notices)
    case Returned(Some(config)) =>
      var wrote := SendAnswer(reply.peer, start + |reply.trace|, config, answer, remote.failing);
      AllOkAppend(reply.trace, wrote.trace);
      Step(wrote.peer, wrote.out, reply.trace + wrote.trace, reply.notices + wrote.notices)
  }

  /** `Negotiate` ends every response it begins. */
  lemma NegotiateClosed(p: Peer, start: nat, remote: Remote, answer: Doc)
    requires p.channel.Some?
    ensures Closed(Negotiate(p, start, remote, answer).trace, Response)
  {
    var reply := AwaitReply(p, start, remote);
    AwaitReplyClosed(p, start, remote);
    if reply.out.Returned? && reply.out.value.Some? {
      var wrote := SendAnswer(reply.peer, start + |reply.trace|, reply.out.value.value, answer, remote.failing);
      SendAnswerUnframed(reply.peer, start + |reply.trace|, reply.out.value.value, answer, remote.failing);
      ClosedThenUnopened(reply.trace, wrote.trace, Response);
    }
  }

  /** `Negotiate` opens no request. */
  lemma NegotiateOpensNoRequest(p: Peer, start: nat, remote: Remote, answer: Doc)
    requires p.channel.Some?
    ensures OpensNone(Negotiate(p, start, remote, answer).trace, Request)
  {
    var reply := AwaitReply(p, start, remote);
    AwaitReplyOpensNoRequest(p, start, remote);
    match reply.out
    case Raised(_) =>
      assert Negotiate(p, start, remote, answer).trace == reply.trace;
    case Returned(None) =>
      assert Negotiate(p, start, remote, answer).trace == reply.trace;
    case Returned(Some(config)) =>
      var wrote := SendAnswer(reply.peer, start + |reply.trace|, config, answer, remote.failing);
      SendAnswerUnframed(reply.peer, start + |reply.trace|, config, answer, remote.failing);
      OpensNoneAppend(reply.trace, wrote.trace, Request);
      assert Negotiate(p, start, remote, answer).trace == reply.trace + wrote.trace;
  }

  /** A normal return of `Negotiate` began its response under the current
      session id. */
  lemma NegotiateBegins(p: Peer, start: nat, remote: Remote, answer: Doc)
    requires p.channel.Some?
    ensures var r := Negotiate(p, start, remote, answer);
      r.out.Returned? ==> |r.trace| > 0 && r.trace[0] == Io(Call.BeginResponse(p.sessionId), true)
  {
    var reply := AwaitReply(p, start, remote);
    match reply.out
    case Raised(_) =>
    case Returned(None) =>
      assert reply.trace[0].ok by {
        assert reply.trace[0] in reply.trace;
      }
    case Returned(Some(config)) =>
      assert reply.trace[0].ok by {
        assert reply.trace[0] in reply.trace;
      }
      var wrote := SendAnswer(reply.peer, start + |reply.trace|, config, answer, remote.failing);
      assert Negotiate(p, start, remote, answer).trace[0] == (reply.trace + wrote.trace)[0];
  }

  /** A refusal of `Negotiate`: the leader is demoted and nothing else, and
      the response is ended last. Demotion happens on refusal only. */
  lemma NegotiateRefused(p: Peer, start: nat, remote: Remote, answer: Doc)
    requires p.channel.Some?
    ensures var r := Negotiate(p, start, remote, answer);
      && (r.out == Returned(false) <==> BecomePeer in r.notices)
      && (r.out == Returned(false) ==> r.notices == [BecomePeer] && r.trace[|r.trace| - 1] == Io(Call.EndResponse, true))
  {
    var r := Negotiate(p, start, remote, answer);
    var reply := AwaitReply(p, start, remote);
    match reply.out
    case Raised(_) =>
      assert r.notices == reply.notices == [];
    case Returned(None) =>
      assert start !in remote.failing by {
        assert reply.trace[0] in reply.trace;
      }
      assert r.trace == reply.trace && r.notices == [BecomePeer];
    case Returned(Some(config)) =>
      var wrote := SendAnswer(reply.peer, start + |reply.trace|, config, answer, remote.failing);
      assert r.notices == [UpdatePeerDatabases(p.id, config)];
  }

  /** An acceptance of `Negotiate` has the leader reconcile the peer's
      databases, and nothing else. */
  lemma NegotiateReconciles(p: Peer, start: nat, remote: Remote, answer: Doc)
    requires p.channel.Some?
    ensures var r := Negotiate(p, start, remote, answer);
      r.out == Returned(true) ==> r.notices == [UpdatePeerDatabases(p.id, remote.peerConfig)]
  {
    var r := Negotiate(p, start, remote, answer);
    if r.out == Returned(true) {
      var reply := AwaitReply(p, start, remote);
      assert reply.out == Returned(Some(remote.peerConfig));
    }
  }

  /** An acceptance of `Negotiate` writes the reconciled answer last. */
  lemma NegotiateAnswers(p: Peer, start: nat, remote: Remote, answer: Doc)
    requires p.channel.Some?
    ensures var r := Negotiate(p, start, remote, answer);
      r.out == Returned(true) ==>
        && |r.trace| > 2
        && r.trace[|r.trace| - 2] == Io(WriteBytes(answer), true)
        && r.trace[|r.trace| - 1] == Io(Flush, true)
  {
    var r := Negotiate(p, start, remote, answer);
    if r.out == Returned(true) {
      var reply := AwaitReply(p, start, remote);
      assert reply.out == Returned(Some(remote.peerConfig));
      var wrote := SendAnswer(reply.peer, start + |reply.trace|, remote.peerConfig, answer, remote.failing);
      assert r.trace == reply.trace + wrote.trace;
      assert r.trace[|r.trace| - 2] == wrote.trace[0];
    }
  }

  /** On a channel where nothing raises, `Negotiate` returns. */
  lemma NegotiateHealthy(p: Peer, start: nat, remote: Remote, answer: Doc)
    requires p.channel.Some? && remote.failing == {}
    ensures Negotiate(p, start, remote, answer).out.Returned?
  {
    var reply := AwaitReply(p, start, remote);
    assert reply.out.Returned? by {
      var body := ReadReply(p, start + 1, remote);
      assert body.out.Returned?;
    }
  }

  /** Which failing positions make the rest of the handshake raise: the
      `beginResponse` and the two reads that always happen, and on
      acceptance the configuration read and the answer's write and flush.
      The `endResponse` in between never raises. */
  lemma NegotiateReturns(p: Peer, start: nat, remote: Remote, answer: Doc)
    requires p.channel.Some?
    ensures var f := remote.failing;
      Negotiate(p, start, remote, answer).out.Returned? <==>
        && start !in f && start + 1 !in f && start + 2 !in f
        && (remote.acceptance != 0 ==> start + 3 !in f && start + 5 !in f && start + 6 !in f)
  {
    var f := remote.failing;
    var reply := AwaitReply(p, start, remote);
    if start !in f {
      var body := ReadReply(p, start + 1, remote);
      assert reply.trace == [Io(Call.BeginResponse(p.sessionId), true)] + body.trace + [Io(Call.EndResponse, true)];
      if reply.out == Returned(Some(remote.peerConfig)) {
        assert |body.trace| == 3;
        assert |reply.trace| == 5;
      }
    }
  }

  /** `connect(timeout, clusterName, securityKey)`. `nextSession` is the id
      the global connection counter hands out, `handshake` the serialized
      handshake document, `remote` the remote node's behaviour and
      `answer` the serialized document the leader's `updatePeerDatabases`
      returns. The result is `true`
      when the remote accepted this node, `false` when it refused because it
      is a leader itself. */
  function Connect(p: Peer, timeout: Int32, nextSession: Int32, handshake: Doc, remote: Remote,
                   answer: Doc): (r: Step<bool>)
    ensures Valid(p) ==> Valid(r.peer)
    ensures r.peer.id == p.id && r.peer.address == p.address && r.peer.port == p.port
    ensures r.peer.serviceThread == p.serviceThread && r.peer.timeout == Some(timeout)
    // how the call completes
    ensures r.out.Raised? <==> !AllOk(r.trace)
    ensures r.out.Raised? ==> r.out.failure == IoError
    ensures r.out == Returned(true) <==> AllOk(r.trace) && remote.acceptance != 0
    ensures r.out == Returned(false) <==> AllOk(r.trace) && remote.acceptance == 0
    // CONNECTED on acceptance; otherwise the status is untouched
    ensures r.out == Returned(true) ==> r.peer.status == Connected
    ensures r.out != Returned(true) ==> r.peer.status == p.status
  {
    var h := SendHandshake(p, timeout, nextSession, handshake, remote.failing);
    if h.out.Raised? then Step(h.peer, Raised(h.out.failure), h.trace, [])
    else
      var rest := Negotiate(h.peer, |h.trace|, remote, answer);
      AllOkAppend(h.trace, rest.trace);
      Step(rest.peer, rest.out, h.trace + rest.trace, rest.notices)
  }

  /** On a channel where nothing raises, `connect` returns, and returns
      `true` exactly when the remote accepts. */
  lemma ConnectHealthy(p: Peer, timeout: Int32, nextSession: Int32, handshake: Doc, remote: Remote,
                       answer: Doc)
    requires remote.failing == {}
    ensures Connect(p, timeout, nextSession, handshake, remote, answer).out == Returned(remote.acceptance != 0)
  {
    var h := SendHandshake(p, timeout, nextSession, handshake, remote.failing);
    assert h.out.Returned?;
    var rest := Negotiate(h.peer, |h.trace|, remote, answer);
    NegotiateHealthy(h.peer, |h.trace|, remote, answer);
  }

  /** Which failing positions make `connect` raise: the five handshake
      calls, the `beginResponse` and the two reads that always happen, and
      on acceptance the configuration read (position 8) and the answer's
      write and flush (positions 10 and 11), `endResponse` at 9 never
      raising. */
  lemma ConnectReturns(p: Peer, timeout: Int32, nextSession: Int32, handshake: Doc, remote: Remote,
                       answer: Doc)
    ensures var f := remote.failing;
      Connect(p, timeout, nextSession, handshake, remote, answer).out.Returned? <==>
        && (forall i :: 0 <= i < 8 ==> i !in f)
        && (remote.acceptance != 0 ==> 8 !in f && 10 !in f && 11 !in f)
  {
    var f := remote.failing;
    var h := SendHandshake(p, timeout, nextSession, handshake, f);
    HandshakeThenReply(f);
    if h.out.Returned? {
      assert |h.trace| == 5;
      NegotiateReturns(h.peer, 5, remote, answer);
      assert Connect(p, timeout, nextSession, handshake, remote, answer).out
          == Negotiate(h.peer, 5, remote, answer).out;
    }
  }

  /** The first eight positions of `connect` are the five of the handshake
      and the three of the reply that always happen. */
  lemma HandshakeThenReply(f: set<nat>)
    ensures (forall i :: 0 <= i < 8 ==> i !in f)
        <==> (forall i :: 0 <= i < 5 ==> i !in f) && 5 !in f && 6 !in f && 7 !in f
  {
  }

  /** A channel that cannot be opened changes nothing but the timeout, and
      the failure propagates. */
  lemma ConnectOpenFails(p: Peer, timeout: Int32, nextSession: Int32, handshake: Doc, remote: Remote,
                         answer: Doc)
    requires 0 in remote.failing
    ensures Connect(p, timeout, nextSession, handshake, remote, answer)
              == Step(p.(timeout := Some(timeout)), Raised(IoError), [Io(Open(p.address, p.port), false)], [])
  {
  }

  /** Once the channel is open, the peer holds it, whatever happens next. */
  lemma ConnectKeepsChannel(p: Peer, timeout: Int32, nextSession: Int32, handshake: Doc, remote: Remote,
                            answer: Doc)
    requires 0 !in remote.failing
    ensures Connect(p, timeout, nextSession, handshake, remote, answer).peer.channel == Some(Channel(p.address, p.port))
  {
  }

  /** The handshake carries the locally allocated session id, the response
      is awaited under it, and on a normal return the remote's session id
      has replaced it. */
  lemma ConnectSession(p: Peer, timeout: Int32, nextSession: Int32, handshake: Doc, remote: Remote,
                       answer: Doc)
    ensures var r := Connect(p, timeout, nextSession, handshake, remote, answer);
      r.out.Returned? ==>
        && r.peer.sessionId == remote.sessionReply
        && |r.trace| > 5
        && r.trace[2] == Io(WriteInt(nextSession), true)
        && r.trace[5] == Io(Call.BeginResponse(nextSession), true)
  {
    var h := SendHandshake(p, timeout, nextSession, handshake, remote.failing);
    if h.out.Returned? {
      var rest := Negotiate(h.peer, |h.trace|, remote, answer);
      NegotiateBegins(h.peer, |h.trace|, remote, answer);
      assert Connect(p, timeout, nextSession, handshake, remote, answer).trace == h.trace + rest.trace;
    }
  }

  /** Refused: the leader is demoted exactly once, the peer's databases are
      not reconciled, and nothing is sent after the response is ended. */
  lemma ConnectRefused(p: Peer, timeout: Int32, nextSession: Int32, handshake: Doc, remote: Remote,
                       answer: Doc)
    ensures var r := Connect(p, timeout, nextSession, handshake, remote, answer);
      && (r.out == Returned(false) ==> r.notices == [BecomePeer])
      && (r.out == Returned(false) ==> |r.trace| > 0 && r.trace[|r.trace| - 1] == Io(Call.EndResponse, true))
      && (BecomePeer in r.notices ==> r.out == Returned(false))
  {
    var h := SendHandshake(p, timeout, nextSession, handshake, remote.failing);
    if h.out.Returned? {
      var rest := Negotiate(h.peer, |h.trace|, remote, answer);
      NegotiateRefused(h.peer, |h.trace|, remote, answer);
      assert (h.trace + rest.trace)[|h.trace| + |rest.trace| - 1] == rest.trace[|rest.trace| - 1];
    }
  }

  /** Accepted: the leader reconciles this peer's databases exactly once,
      under the peer's identity, and the answer is the last thing written. */
  lemma ConnectAccepted(p: Peer, timeout: Int32, nextSession: Int32, handshake: Doc, remote: Remote,
                        answer: Doc)
    ensures var r := Connect(p, timeout, nextSession, handshake, remote, answer);
      && (r.out == Returned(true) ==> r.notices == [UpdatePeerDatabases(p.id, remote.peerConfig)])
      && (r.out == Returned(true) ==>
            && |r.trace| > 2
            && r.trace[|r.trace| - 2] == Io(WriteBytes(answer), true)
            && r.trace[|r.trace| - 1] == Io(Flush, true))
  {
    var h := SendHandshake(p, timeout, nextSession, handshake, remote.failing);
    if h.out.Returned? {
      var rest := Negotiate(h.peer, |h.trace|, remote, answer);
      NegotiateReconciles(h.peer, |h.trace|, remote, answer);
      NegotiateAnswers(h.peer, |h.trace|, remote, answer);
      if rest.out == Returned(true) {
        var t := h.trace + rest.trace;
        assert t[|t| - 1] == rest.trace[|rest.trace| - 1];
        assert t[|t| - 2] == rest.trace[|rest.trace| - 2];
      }
    }
  }

  /** Every response `connect` begins is ended, on the refused, accepted and
      failing paths alike, and it opens no request. */
  lemma ConnectFramed(p: Peer, timeout: Int32, nextSession: Int32, handshake: Doc, remote: Remote,
                      answer: Doc)
    ensures Framed(Connect(p, timeout, nextSession, handshake, remote, answer).trace)
  {
    var h := SendHandshake(p, timeout, nextSession, handshake, remote.failing);
    assert OpensNone(h.trace, Response) && OpensNone(h.trace, Request);
    ClosedWithoutOpens(h.trace, Response);
    ClosedWithoutOpens(h.trace, Request);
    if h.out.Returned? {
      var rest := Negotiate(h.peer, |h.trace|, remote, answer);
      NegotiateClosed(h.peer, |h.trace|, remote, answer);
      NegotiateOpensNoRequest(h.peer, |h.trace|, remote, answer);
      ClosedWithoutOpens(rest.trace, Request);
      FramedAppend(h.trace, rest.trace);
    }
  }

  /** The request body of `sendConfiguration`: the opcode, the current
      session id and the configuration document. */
  function ConfigurationBody(session: Int32, config: Doc): seq<Call> {
    [WriteOpcode(DbConfig), WriteInt(session), WriteBytes(config)]
  }

  /** `sendConfiguration(configuration)`: a request carrying the current
      session id and the configuration document, then an empty response.
      Every exception, the one of a missing channel included, is caught and
      only logged, so the call always returns and changes no state. */
  function SendConfiguration(p: Peer, config: Doc, failing: set<nat>): (r: Step<()>)
    ensures r.peer == p && r.out == Returned(()) && r.notices == []
    ensures p.channel.None? ==> r.trace == []
    ensures p.channel.Some? ==> |r.trace| > 0 && r.trace[0] == Io(BeginRequest, 0 !in failing)
  {
    var t := if p.channel.None? then [] else Exchange(ConfigurationBody(p.sessionId, config), p.sessionId, failing).0;
    Step(p, Returned(()), t, [])
  }

  /** The configuration reaches the remote exactly when no channel call
      raises, and then the whole exchange was made in protocol order. */
  lemma SendConfigurationDelivers(p: Peer, config: Doc, failing: set<nat>)
    requires p.channel.Some?
    ensures var r := SendConfiguration(p, config, failing);
      AllOk(r.trace) <==> r.trace == Completed(ExchangeCalls(ConfigurationBody(p.sessionId, config), p.sessionId))
  {
    ExchangeCompletes(ConfigurationBody(p.sessionId, config), p.sessionId, failing);
  }

  /** With a channel, the configuration exchange has no failing call exactly
      when none of its first six positions fails: the last, `endResponse`,
      never raises. */
  lemma SendConfigurationReaches(p: Peer, config: Doc, failing: set<nat>)
    requires p.channel.Some?
    ensures AllOk(SendConfiguration(p, config, failing).trace) <==> forall i :: 0 <= i < 6 ==> i !in failing
  {
    ExchangeReturns(ConfigurationBody(p.sessionId, config), p.sessionId, failing);
  }

  /** Whatever raises, `sendConfiguration` leaves no request or response
      open, and ends every response it tried to begin. */
  lemma SendConfigurationFramed(p: Peer, config: Doc, failing: set<nat>)
    ensures var r := SendConfiguration(p, config, failing);
      Framed(r.trace) && AttemptsClosed(r.trace)
  {
    if p.channel.Some? {
      ExchangeFramed(ConfigurationBody(p.sessionId, config), p.sessionId, failing);
    } else {
      WithoutResponse([]);
    }
  }

  /** The request body of `sendHeartBeat`: the opcode and the current
      session id. */
  function HeartbeatBody(session: Int32): seq<Call> {
    [WriteOpcode(Heartbeat), WriteInt(session)]
  }

  /** `sendHeartBeat(networkTimeout)`: only a CONNECTED peer with a channel
      is probed; the socket timeout is set, a heartbeat request carrying the
      session id is sent and an empty response awaited. Every exception is
      caught, and the result is whether the whole exchange returned. */
  function SendHeartBeat(p: Peer, timeout: Int32, failing: set<nat>): (r: Step<bool>)
    ensures r.out.Returned? && r.notices == []
    ensures r.out == Returned(true) <==> p.channel.Some? && p.status == Connected && AllOk(r.trace)
    ensures p.channel.None? || p.status != Connected ==> r.peer == p && r.trace == []
    ensures p.channel.Some? && p.status == Connected ==> r.peer == p.(timeout := Some(timeout))
  {
    if p.channel.None? || p.status != Connected then Step(p, Returned(false), [], [])
    else
      var (t, answered) := Exchange(HeartbeatBody(p.sessionId), p.sessionId, failing);
      Step(p.(timeout := Some(timeout)), Returned(answered), t, [])
  }

  /** A heartbeat is answered exactly when the peer is CONNECTED with a
      channel and none of the exchange's first five positions fails. */
  lemma SendHeartBeatAnswered(p: Peer, timeout: Int32, failing: set<nat>)
    ensures SendHeartBeat(p, timeout, failing).out == Returned(true) <==>
              p.channel.Some? && p.status == Connected && forall i :: 0 <= i < 5 ==> i !in failing
  {
    ExchangeReturns(HeartbeatBody(p.sessionId), p.sessionId, failing);
  }

  /** A heartbeat that succeeds made the whole exchange in protocol order. */
  lemma SendHeartBeatExchange(p: Peer, timeout: Int32, failing: set<nat>)
    ensures var r := SendHeartBeat(p, timeout, failing);
      r.out == Returned(true) ==> r.trace == Completed(ExchangeCalls(HeartbeatBody(p.sessionId), p.sessionId))
  {
    ExchangeCompletes(HeartbeatBody(p.sessionId), p.sessionId, failing);
  }

  /** Whatever raises, `sendHeartBeat` leaves no request or response open,
      and ends every response it tried to begin. */
  lemma SendHeartBeatFramed(p: Peer, timeout: Int32, failing: set<nat>)
    ensures var r := SendHeartBeat(p, timeout, failing);
      Framed(r.trace) && AttemptsClosed(r.trace)
  {
    if p.channel.Some? && p.status == Connected {
      ExchangeFramed(HeartbeatBody(p.sessionId), p.sessionId, failing);
    } else {
      WithoutResponse([]);
    }
  }

  /** `checkConnection()`: asks the channel's socket whether it is connected;
      a missing channel or socket, or a probe that raises, counts as not
      connected, and a peer found not connected becomes DISCONNECTED. The
      channel itself is kept. */
  function CheckConnection(p: Peer, probe: Probe): (r: Step<bool>)
    ensures r.out.Returned? && r.notices == []
    ensures r.out == Returned(true) <==> p.channel.Some? && probe == Reports(true)
    ensures r.out == Returned(true) ==> r.peer == p
    ensures r.out == Returned(false) ==> r.peer == p.(status := Disconnected)
    ensures r.trace != [] <==> p.channel.Some? && !probe.NoSocket?
    ensures forall e <- r.trace :: e.call == IsConnected
    ensures |r.trace| <= 1
    ensures r.trace != [] ==> r.trace[0].ok == !probe.Throws?
  {
    var connected := p.channel.Some? && probe == Reports(true);
    var t := if p.channel.Some? && !probe.NoSocket? then [Io(IsConnected, !probe.Throws?)] else [];
    Step(if connected then p else p.(status := Disconnected), Returned(connected), t, [])
  }

  /** `disconnect()`: closes the channel if there is one and drops it, and
      shuts the service thread down if one is attached. The status is left
      as it was. */
  function Disconnect(p: Peer): (r: Step<()>)
    ensures r.peer.channel.None? && r.out == Returned(())
    ensures r.peer.status == p.status
    ensures r.trace == if p.channel.Some? then [Io(Close, true)] else []
    ensures ServiceShutdown in r.notices <==> p.serviceThread
    ensures r.peer == p.(channel := None)
  {
    var t := if p.channel.Some? then [Io(Close, true)] else [];
    Step(p.(channel := None), Returned(()), t, if p.serviceThread then [ServiceShutdown] else [])
  }

  /** `checkConnection()` only ever demotes: it leaves the peer as it was
      or marks it DISCONNECTED, and never touches the channel. */
  lemma CheckConnectionDemotes(p: Peer, probe: Probe)
    ensures var r := CheckConnection(p, probe);
      && (r.peer.status == p.status || r.peer.status == Disconnected)
      && r.peer.channel == p.channel
      && (Valid(p) ==> Valid(r.peer))
  {
  }

  /** A second `disconnect()` finds no channel to close and leaves the same
      state; only the service thread shutdown is repeated. */
  lemma DisconnectIdempotent(p: Peer)
    ensures var d := Disconnect(p);
      var again := Disconnect(d.peer);
      again.peer == d.peer && again.trace == [] && again.notices == d.notices
  {
  }

  /** Once disconnected, a peer is found not connected whatever the socket
      would report, and is marked DISCONNECTED. */
  lemma CheckAfterDisconnect(p: Peer, probe: Probe)
    ensures var c := CheckConnection(Disconnect(p).peer, probe);
      c.out == Returned(false) && c.peer.status == Disconnected && c.trace == []
  {
  }

  /** A heartbeat after `disconnect()` is refused without touching the
      channel, whatever the status says. */
  lemma HeartBeatAfterDisconnect(p: Peer, timeout: Int32, failing: set<nat>)
    ensures var h := SendHeartBeat(Disconnect(p).peer, timeout, failing);
      h.out == Returned(false) && h.trace == [] && h.peer == Disconnect(p).peer
  {
  }
}
